=== FILE: README.md ===
# cmd-builder in Dafny

A model of `cmd-builder`, a small Go package that wraps `os/exec` in a
fluent builder. A builder is made by `Cmd(name, args...)` or by
`Shell(script)`, which picks the host's shell from `runtime.GOOS`. It is
then configured by chained setters (`Dir`, `Stdout`, `Stderr`, `Stdin`,
`Interactive`, `Env`) and finished by a terminal action. A `CmdFactory`
holds a set of options and stamps them onto every builder it makes.

The two terminal actions with logic of their own are modelled:

- `Output` runs the command and returns its standard output with the
  white space at both ends trimmed. Go's `exec.Cmd.Output` refuses a
  command whose stdout is already set. The builder works around that by
  fanning stdout out to the old writer and to a capture buffer.
- `Lines` takes the trimmed output, turns every CRLF into LF, and splits
  the result on LF.

Every Go method that mutates the builder in place and returns it becomes a
pure function from the old command to the new one.

Modules, one file each:

- `Wrappers` (`wrappers.dfy`): `Option` (Go's nil) and `Result`.
- `Strings` (`strings.dfy`): the Go `strings` functions the package calls,
  on strings seen as rune sequences: `TrimSpace`, `Index`, `Split`, `Join`
  and `ReplaceAll`.
- `StringsLemmas` (`strings_lemmas.dfy`): what those functions promise.
  This covers the slice `TrimSpace` keeps, `Index` finding the first
  occurrence, the `Split`/`Join` round trips, and `ReplaceAll` as the join
  of a split.
- `Newlines` (`newlines.dfy`): the CRLF→LF pass of `Lines` and what it
  preserves.
- `Exec` (`exec.dfy`): the part of `exec.Cmd` the builder touches. It holds
  the command record, writers as opaque handles (`io.MultiWriter`
  included), and `exec.Cmd.Output` with its "Stdout already set" refusal.
- `Builder` (`builder.dfy`): `Cmd`, `Shell`, the setters, `Output` and
  `Lines`.
- `Factory` (`factory.dfy`): `CmdFactoryOptions`, `NewFactory`, and the
  factory's `Cmd` and `Shell`.

The caller's environment (`os.Environ()`), `$SHELL` and `runtime.GOOS`
are parameters. So is the outcome of running the process, either everything
it wrote to stdout or a failure.

Because `Output` trims before `Lines` splits, a trailing line terminator
never leaves an empty last line: `"a\r\nb\n"` gives `"a"`, `"b"`
(`Builder.LinesOfCrlfOutput`). A last line is empty only when the whole
output was blank (`Builder.LinesLastEmptyIffBlank`).

## Model

| member | source | states |
|---|---|---|
| `Builder.Cmd` | cmd.go:90-98 | A new builder runs `name args...` with stderr set to the caller's stderr and the caller's environment. Stdin and stdout are nil and the directory is the caller's. |
| `Builder.ShellInvocation` | cmd.go:109-120 | The shell table: bash on linux, zsh on darwin, powershell on windows, `$SHELL` elsewhere. The flag is `-Command` on windows and `-c` otherwise, and the script is always the single argument after the flag. |
| `Builder.Shell` | cmd.go:109-120 | `Shell` is the plain builder for the shell program and arguments the table picks. |
| `Builder.ShellIgnoresShellVarOnKnownOs` | cmd.go:110-119 | On linux, darwin and windows the value of `$SHELL` makes no difference. |
| `Builder.ShellOnLinux` | cmd.go:113-114 | On linux, `Shell("echo hi")` is `Cmd("bash", "-c", "echo hi")`. |
| `Builder.Dir` | cmd.go:125-128 | Sets the working directory and leaves every other field alone. |
| `Builder.Stdout` | cmd.go:132-135 | Sets stdout (nil is allowed) and leaves every other field alone. |
| `Builder.Stderr` | cmd.go:139-142 | Sets stderr (nil is allowed) and leaves every other field alone. |
| `Builder.Stdin` | cmd.go:146-149 | Sets stdin (nil is allowed) and leaves every other field alone. |
| `Builder.Interactive` | cmd.go:153-158 | All three streams become the caller's own, and nothing else changes. |
| `Builder.Env` | cmd.go:164-167 | The old entries stay in front, unchanged, and the new ones follow in order. Nothing else changes. |
| `Builder.LastWriteWins` | cmd.go:125-149 | A second call to a single-valued setter overrides the first, so `Dir("")` restores the caller's directory. |
| `Builder.SettersCommute` | cmd.go:125-167 | Setters of different fields can be called in either order. This holds for every pair among `Dir`, `Stdout`, `Stderr`, `Stdin` and `Env`. |
| `Builder.InteractiveIdempotent` | cmd.go:153-158 | `Interactive` is idempotent and erases any earlier stream setting. |
| `Builder.EnvAccumulates` | cmd.go:164-167 | Two `Env` calls are one call with both lists: entries are never dropped or reordered. |
| `Exec.ExecOutput` | cmd.go:190-203 | `exec.Cmd.Output` fails with "Stdout already set" exactly when stdout was set, and then leaves the command untouched. Otherwise it captures stdout, keeps a set stderr or saves a nil one, and returns the process's output or its failure unchanged. |
| `Builder.Output` | cmd.go:186-207 | Success gives the trimmed stdout, and a failure gives no text with the process's error. Afterwards stdout reaches a capture buffer, and it still reaches a writer set beforehand. The fan-out reaches nothing else: every plain writer it forwards to is the buffer or one the old writer reached. A set stderr is kept. A nil stderr stays nil when stdout was preset, and is otherwise replaced by `exec.Cmd.Output`'s saver buffer. Only stdout and stderr change. |
| `Builder.OutputIsTrimmed` | cmd.go:206 | The text neither starts nor ends with white space. It is the raw output with only white space cut from its two ends. |
| `Builder.OutputNeverRefusesPresetStdout` | cmd.go:190-204 | The builder never reports "Stdout already set", although `exec.Cmd.Output` does so for the same command. |
| `Builder.OutputTrimsNewline` | cmd.go:206 | Output `"hello\n"` comes back as `"hello"`. |
| `Builder.Lines` | cmd.go:210-217 | `Lines` reports the same error and leaves the builder as `Output` does. On error there are no lines, otherwise at least one. |
| `Builder.LinesJoinBack` | cmd.go:216 | No line holds an LF. Joining the lines with LF gives the normalised trimmed output, and splitting that again gives the lines. |
| `Builder.LinesLastEmptyIffBlank` | cmd.go:210-216 | The last line is empty exactly when the output was blank, and blank output gives one empty line. |
| `Builder.LinesOfCrlfOutput` | cmd.go:210-216 | `"a\r\nb\n"` gives `"a"`, `"b"`. |
| `Factory.NewFactory` | cmd.go:29-33 | The factory holds the given options. |
| `Factory.Cmd` | cmd.go:37-60 | Each set stream option, and a non-empty directory, overrides the plain builder's default. Stderr stays the caller's when the option is nil. The environment is the caller's followed by the option entries. |
| `Factory.Shell` | cmd.go:71-82 | The factory's `Shell` runs the shell the table picks, through the factory's `Cmd`. |
| `Factory.EmptyFactoryIsPlainCmd` | cmd.go:37-60 | A factory with no options makes exactly the plain builder. |
| `Factory.FactoryIsSetterChain` | cmd.go:37-60 | A factory builder equals the plain builder passed through the setters for the options that are set. |
| `Factory.FactoryShellMatchesPlainShell` | cmd.go:71-82 | The factory's shell and the plain shell run the same program with the same arguments. With no options they are the same builder. |
| `Factory.FactoryExample` | cmd.go:51-56 | Options `Dir: "/tmp"`, `Env: ["W=1"]` give a builder in `/tmp` whose environment is the caller's followed by `W=1`. |
| `Strings.IsSpace` | cmd.go:206 | The white space `TrimSpace` cuts: Go's `unicode.IsSpace`, the runes with the Unicode White_Space property. |
| `Strings.TrimSpace` | cmd.go:206 | The result is never longer than the input, and neither of its ends is white space. |
| `Strings.Index` | cmd.go:216 | A reported occurrence lies wholly inside the text. `StringsLemmas.IndexIsFirst` shows it is the first one. |
| `Strings.Split` | cmd.go:216 | With a non-empty separator there is always at least one piece, even for empty text. |
| `Strings.Join` | cmd.go:216 | The first element starts the joined text. |
| `Strings.ReplaceAll` | cmd.go:216 | With a non-empty target, a replacement no longer than the target never lengthens the text, and one of the same length keeps its length. |
| `StringsLemmas.TrimLeftSpec` | cmd.go:206 | The left half of `TrimSpace` keeps a suffix that does not start with white space, and drops only white space. |
| `StringsLemmas.TrimRightSpec` | cmd.go:206 | The right half of `TrimSpace` keeps a prefix that does not end with white space, and drops only white space. |
| `StringsLemmas.TrimSpaceSlice` | cmd.go:206 | `TrimSpace` returns a contiguous slice of its input with no outer white space, and only white space lies around it. |
| `StringsLemmas.TrimSpaceOfPadded` | cmd.go:206 | This is the independent characterisation: white space around a text with no outer white space is exactly what `TrimSpace` removes. |
| `StringsLemmas.TrimSpaceIdempotent` | cmd.go:206 | Trimming twice is trimming once. |
| `StringsLemmas.TrimSpaceEmptyIffBlank` | cmd.go:206 | The trimmed text is empty exactly when the input is all white space. |
| `StringsLemmas.IndexIsFirst` | cmd.go:216 | `Index`, which `Split` uses, returns the first occurrence. It reports none only when the separator occurs nowhere. |
| `StringsLemmas.SplitPiecesClean` | cmd.go:216 | No piece of a split contains the separator. |
| `StringsLemmas.JoinSplit` | cmd.go:216 | Joining the pieces of a split with the separator restores the input. |
| `StringsLemmas.SplitJoin` | cmd.go:216 | For a one-rune separator, splitting the join of separator-free elements gives the elements back. |
| `StringsLemmas.SplitLastPieceEmpty` | cmd.go:216 | With a one-rune separator, the last piece is empty exactly when the text is empty or ends with the separator. |
| `StringsLemmas.ReplaceAllSubstitutes` | cmd.go:216 | Where the pattern starts the text, `ReplaceAll` writes the replacement in its place and carries on after it. |
| `StringsLemmas.ReplaceAllCopies` | cmd.go:216 | Where the pattern does not start the text, `ReplaceAll` copies the first rune and carries on with the rest. |
| `StringsLemmas.ReplaceAllClean` | cmd.go:216 | A text in which the pattern does not occur is returned unchanged. |
| `StringsLemmas.ReplaceAllIsJoinOfSplit` | cmd.go:216 | `ReplaceAll` with a non-empty target is the split on the target, joined with the replacement. |
| `StringsLemmas.ReplaceAllSelf` | cmd.go:216 | Replacing a string by itself changes nothing. |
| `Newlines.NormalizeOnlyDropsCarriageReturns` | cmd.go:216 | Every rune other than a carriage return, line feeds included, survives the CRLF→LF pass in order, and the text never grows. |
| `Newlines.NormalizeWithoutCarriageReturn` | cmd.go:216 | Text with no carriage return is left as it is. |
| `Newlines.NormalizeIsSinglePass` | cmd.go:216 | The pass is not a fixpoint: `"\r\r\n"` becomes `"\r\n"`. |
| `Newlines.NormalizeConcat` | cmd.go:216 | The pass distributes over a concatenation whose seam does not split a CRLF pair. |
| `Newlines.NormalizeCommutesWithTrim` | cmd.go:206-216 | Trimming then normalising equals normalising then trimming. |
| `Newlines.NormalizeKeepsBlank` | cmd.go:216 | The CRLF→LF pass turns blank text into blank text. |
| `Newlines.NormalizeKeepsFirst` | cmd.go:216 | A first rune other than a carriage return stays first. |
| `Newlines.NormalizeKeepsLast` | cmd.go:216 | A last rune other than a line feed stays last. |
| `Newlines.LastLineEmptyIffBlank` | cmd.go:206-216 | Trimmed, normalised and split on LF, a text ends in an empty line exactly when it is blank, and then that empty line is the only one. |
| `Newlines.LastLineOfTrimmed` | cmd.go:206-216 | Normalise a text with no outer white space and split it on LF: the last line is empty only when the text was empty. |

## Left out

- `Build` (cmd.go:170-172) returns the `*exec.Cmd` itself and starts
  nothing. In the value model it is the identity on `Command`, so it has no
  member of its own. `Start` and `Run` (cmd.go:175-182) hand the command to
  the operating system. Process creation, waiting and exit status are not
  modelled. Their only effect that the builder sees is the run's outcome,
  which `Output` takes as a parameter.
- `os.Environ()`, `os.Getenv("SHELL")` and `runtime.GOOS` read the host, so
  they are parameters (`environ`, `shellVar`, `goos`).
- `exec.Command` also resolves the program through `PATH` and records a
  lookup error in the command. That belongs to `os/exec`, not to this
  package, and is not modelled. The name is kept as given.
- `string(output)` copies the bytes a process writes as they are. The model
  starts from runes, so output that is not valid UTF-8 is left out. On valid text, Go's byte-wise `Index`, `Split` and `ReplaceAll`
  agree with the rune-wise model.
- Writers are identities (`Handle`): the model records where output is
  forwarded, not the bytes each writer receives. It also leaves out the
  stderr text that `exec.Cmd.Output` attaches to an `ExitError`.
- Builder.Output: states that a preset writer is still reached through the
  fan-out, not that it receives the same bytes as the capture buffer, since
  writes are not modelled.
- Go's pointer aliasing is left out. Every setter mutates the one shared
  `*CmdBuilder` and returns it, and `Build` (cmd.go:170-172) hands out the
  very `*exec.Cmd` that later setter calls still change. The model uses
  values, so every call returns a new command and a command handed out
  earlier never changes afterwards.
- StringsLemmas.SplitJoin: the round trip is proved only for one-rune
  separators. With longer ones an element can end with a prefix of the
  separator, and the round trip fails. `Lines` splits on the one-rune LF.

=== FILE: builder.dfy ===
/** The command builder: the constructors `Cmd` and `Shell`, the chained
    setters, and the pure tails of the `Output` and `Lines` terminal actions.
    Each Go method that mutates the builder and returns it is a function from
    the old command to the new one. */
module Builder {
  import opened Wrappers
  import opened Strings
  import opened StringsLemmas
  import opened Newlines
  import opened Exec

  // ------------------------------------------------------------ construction

  /** A fresh builder for `name args...`: stderr goes to the caller's stderr,
      the environment is the caller's (`environ`, Go's `os.Environ()`), stdin
      and stdout are unset and the directory is the caller's. */
  function Cmd(name: string, args: seq<string>, environ: seq<string>): (r: Command)
    ensures r.name == name && r.args == args
    ensures r.stderr == Some(OsStderr) && r.env == environ
    ensures r.stdin == None && r.stdout == None && r.dir == []
  {
    Command(name, args, [], None, None, Some(OsStderr), environ)
  }

  /** A program and its arguments. */
  datatype Invocation = Invocation(name: string, args: seq<string>)

  /** The shell table shared by both `Shell` functions, keyed by Go's
      `runtime.GOOS`; `shellVar` is the value of `$SHELL`. */
  function ShellInvocation(goos: string, shellVar: string, script: string): (r: Invocation)
    ensures |r.args| == 2 && r.args[1] == script
    ensures r.args[0] == (if goos == "windows" then "-Command" else "-c")
    ensures goos == "linux" ==> r.name == "bash"
    ensures goos == "darwin" ==> r.name == "zsh"
    ensures goos == "windows" ==> r.name == "powershell"
    ensures goos !in {"linux", "darwin", "windows"} ==> r.name == shellVar
  {
    match goos
    case "linux" => Invocation("bash", ["-c", script])
    case "darwin" => Invocation("zsh", ["-c", script])
    case "windows" => Invocation("powershell", ["-Command", script])
    case _ => Invocation(shellVar, ["-c", script])
  }

  /** A builder running `script` through the host's shell. */
  function Shell(goos: string, shellVar: string, script: string, environ: seq<string>): (r: Command)
    ensures r.name == ShellInvocation(goos, shellVar, script).name
    ensures r.args == ShellInvocation(goos, shellVar, script).args
    ensures r == Cmd(r.name, r.args, environ)
  {
    var inv := ShellInvocation(goos, shellVar, script);
    Cmd(inv.name, inv.args, environ)
  }

  /** The shell is chosen by the operating system alone: on the three named
      systems `$SHELL` plays no part. */
  lemma ShellIgnoresShellVarOnKnownOs(goos: string, v1: string, v2: string, script: string, environ: seq<string>)
    requires goos in {"linux", "darwin", "windows"}
    ensures Shell(goos, v1, script, environ) == Shell(goos, v2, script, environ)
  {
  }

  /** On Linux, `Shell("echo hi")` is `Cmd("bash", "-c", "echo hi")`. */
  lemma ShellOnLinux(shellVar: string, environ: seq<string>)
    ensures Shell("linux", shellVar, "echo hi", environ) == Cmd("bash", ["-c", "echo hi"], environ)
  {
  }

  // ----------------------------------------------------------------- setters

  /** `Dir`: the working directory; empty means the caller's. */
  function Dir(c: Command, dir: string): (r: Command)
    ensures r.dir == dir
    ensures SameExcept(c, r, {DirField})
  {
    c.(dir := dir)
  }

  /** `Stdout`: the writer for the process's standard output; `None` discards. */
  function Stdout(c: Command, stdout: Option<Handle>): (r: Command)
    ensures r.stdout == stdout
    ensures SameExcept(c, r, {StdoutField})
  {
    c.(stdout := stdout)
  }

  /** `Stderr`: the writer for the process's standard error; `None` discards. */
  function Stderr(c: Command, stderr: Option<Handle>): (r: Command)
    ensures r.stderr == stderr
    ensures SameExcept(c, r, {StderrField})
  {
    c.(stderr := stderr)
  }

  /** `Stdin`: the reader for the process's standard input; `None` reads
      nothing. */
  function Stdin(c: Command, stdin: Option<Handle>): (r: Command)
    ensures r.stdin == stdin
    ensures SameExcept(c, r, {StdinField})
  {
    c.(stdin := stdin)
  }

  /** `Interactive`: all three standard streams are the caller's own. */
  function Interactive(c: Command): (r: Command)
    ensures r.stdin == Some(OsStdin) && r.stdout == Some(OsStdout) && r.stderr == Some(OsStderr)
    ensures SameExcept(c, r, {StdinField, StdoutField, StderrField})
  {
    c.(stderr := Some(OsStderr), stdin := Some(OsStdin), stdout := Some(OsStdout))
  }

  /** `Env`: appends entries to the environment. */
  function Env(c: Command, vars: seq<string>): (r: Command)
    ensures |r.env| == |c.env| + |vars|
    ensures r.env[..|c.env|] == c.env && r.env[|c.env|..] == vars
    ensures SameExcept(c, r, {EnvField})
  {
    c.(env := c.env + vars)
  }

  /** Last write wins for every single-valued setter, so `Dir("")` after any
      `Dir(x)` restores the caller's directory. */
  lemma LastWriteWins(c: Command, d1: string, d2: string, a: Option<Handle>, b: Option<Handle>)
    ensures Dir(Dir(c, d1), d2) == Dir(c, d2)
    ensures Dir(Dir(c, d1), "").dir == []
    ensures Stdout(Stdout(c, a), b) == Stdout(c, b)
    ensures Stderr(Stderr(c, a), b) == Stderr(c, b)
    ensures Stdin(Stdin(c, a), b) == Stdin(c, b)
  {
  }

  /** Setters of different fields commute. */
  lemma SettersCommute(c: Command, d: string, i: Option<Handle>, o: Option<Handle>, e: Option<Handle>, vars: seq<string>)
    ensures Stdin(Stdout(c, o), i) == Stdout(Stdin(c, i), o)
    ensures Stderr(Stdout(c, o), e) == Stdout(Stderr(c, e), o)
    ensures Stdin(Stderr(c, e), i) == Stderr(Stdin(c, i), e)
    ensures Dir(Stdout(c, o), d) == Stdout(Dir(c, d), o)
    ensures Dir(Stdin(c, i), d) == Stdin(Dir(c, d), i)
    ensures Dir(Stderr(c, e), d) == Stderr(Dir(c, d), e)
    ensures Env(Dir(c, d), vars) == Dir(Env(c, vars), d)
    ensures Env(Stdout(c, o), vars) == Stdout(Env(c, vars), o)
    ensures Env(Stderr(c, e), vars) == Stderr(Env(c, vars), e)
    ensures Env(Stdin(c, i), vars) == Stdin(Env(c, vars), i)
  {
  }

  /** `Interactive` is idempotent, and erases any earlier stream setting. */
  lemma InteractiveIdempotent(c: Command, h: Option<Handle>)
    ensures Interactive(Interactive(c)) == Interactive(c)
    ensures Interactive(Stdout(c, h)) == Interactive(c)
    ensures Interactive(Stdin(c, h)) == Interactive(c)
    ensures Interactive(Stderr(c, h)) == Interactive(c)
  {
  }

  /** Successive `Env` calls accumulate: earlier entries are never dropped or
      reordered. */
  lemma EnvAccumulates(c: Command, a: seq<string>, b: seq<string>)
    ensures Env(Env(c, a), b) == Env(c, a + b)
    ensures Env(Env(c, a), b).env == c.env + a + b
  {
    assert c.env + a + b == c.env + (a + b);
  }

  // ---------------------------------------------------------------- Output

  /** The builder after an `Output` call, the trimmed output, and the error. */
  datatype OutputResult = OutputResult(cmd: Command, text: string, err: Option<ExecError>)

  /** `Output`: runs the command and returns its standard output without
      leading and trailing white space. A stdout set beforehand is not an
      error: it becomes a fan-out to the old writer and a capture buffer. */
  function Output(c: Command, run: ProcessResult): (r: OutputResult)
    ensures run.Failed? ==> r.text == [] && r.err == Some(ProcessError(run.failure))
    ensures run.Completed? ==> r.err == None && r.text == TrimSpace(run.stdout)
    ensures r.cmd.stdout.Some? && ForwardsTo(r.cmd.stdout.value, Capture)
    ensures c.stdout.Some? ==> ForwardsTo(r.cmd.stdout.value, c.stdout.value)
    ensures c.stdout.Some? ==> forall t: Handle :: !t.MultiWriter? && ForwardsTo(r.cmd.stdout.value, t) ==>
      t == Capture || ForwardsTo(c.stdout.value, t)
    ensures c.stdout.None? ==> r.cmd.stdout == Some(Capture)
    ensures c.stdout.Some? ==> r.cmd.stderr == c.stderr
    ensures c.stderr.Some? ==> r.cmd.stderr == c.stderr
    ensures c.stdout.None? && c.stderr.None? ==> r.cmd.stderr == Some(StderrSaver)
    ensures SameExcept(c, r.cmd, {StdoutField, StderrField})
  {
    if c.stdout.Some? then
      var w := MultiWriter([c.stdout.value, Capture]);
      assert ForwardsTo(w.writers[0], c.stdout.value) && ForwardsTo(w.writers[1], Capture);
      var c' := c.(stdout := Some(w));
      match run
      case Failed(f) => OutputResult(c', [], Some(ProcessError(f)))
      case Completed(out) => OutputResult(c', TrimSpace(out), None)
    else
      var captured := ExecOutput(c, run);
      match captured.output
      case Failure(e) => OutputResult(captured.cmd, [], Some(e))
      case Success(out) => OutputResult(captured.cmd, TrimSpace(out), None)
  }

  /** The text `Output` returns has no white space at either end, and is the
      raw output with only white space cut from its ends. */
  lemma OutputIsTrimmed(c: Command, out: string)
    ensures var text := Output(c, Completed(out)).text;
      && NoOuterSpace(text)
      && exists i :: (0 <= i <= |out| - |text| && out == out[..i] + text + out[i + |text|..]
                      && AllSpace(out[..i]) && AllSpace(out[i + |text|..]))
  {
    var text := TrimSpace(out);
    var i := TrimSpaceSlice(out);
    ThreeSlices(out, i, |text|);
  }

  /** `Output` never reports "stdout already set", whereas Go's own
      `exec.Cmd.Output` does whenever stdout was set beforehand. */
  lemma OutputNeverRefusesPresetStdout(c: Command, run: ProcessResult)
    ensures Output(c, run).err != Some(StdoutAlreadySet)
    ensures c.stdout.Some? ==> ExecOutput(c, run).output == Failure(StdoutAlreadySet)
  {
  }

  /** Output `"hello\n"` comes back as `"hello"`. */
  lemma OutputTrimsNewline(c: Command)
    ensures Output(c, Completed("hello\n")).text == "hello"
  {
    assert "hello\n" == [] + "hello" + "\n";
    TrimSpaceOfPadded([], "hello", "\n");
  }

  // ------------------------------------------------------------------ Lines

  /** The builder after a `Lines` call, the lines, and the error. */
  datatype LinesResult = LinesResult(cmd: Command, lines: seq<string>, err: Option<ExecError>)

  /** `Lines`: the trimmed output with every CRLF turned into LF, split on
      LF. An error from `Output` is passed on with no lines (Go's nil). */
  function Lines(c: Command, run: ProcessResult): (r: LinesResult)
    ensures r.cmd == Output(c, run).cmd && r.err == Output(c, run).err
    ensures r.err.Some? ==> r.lines == []
    ensures r.err.None? ==> |r.lines| >= 1
  {
    var o := Output(c, run);
    if o.err.Some? then LinesResult(o.cmd, [], o.err)
    else LinesResult(o.cmd, Split(ReplaceAll(o.text, CRLF, LF), LF), None)
  }

  /** The lines hold no line feed, and joining them with LF gives back the
      normalised trimmed output; splitting that join gives the lines again. */
  lemma LinesJoinBack(c: Command, out: string)
    ensures var lines := Lines(c, Completed(out)).lines;
      && (forall k :: 0 <= k < |lines| ==> !Contains(lines[k], LF))
      && Join(lines, LF) == ReplaceAll(TrimSpace(out), CRLF, LF)
      && Split(Join(lines, LF), LF) == lines
  {
    var n := ReplaceAll(TrimSpace(out), CRLF, LF);
    SplitPiecesClean(n, LF);
    JoinSplit(n, LF);
  }

  /** On a completed run, the lines are the split on LF of the normalised
      trimmed output. */
  lemma LinesOfCompleted(c: Command, out: string)
    ensures Lines(c, Completed(out)).lines == Split(ReplaceAll(TrimSpace(out), CRLF, LF), LF)
    ensures Lines(c, Completed(out)).err == None
  {
    assert Output(c, Completed(out)).err == None;
  }

  /** Because trimming comes before splitting, the last line is empty only
      when the whole output was blank, and blank output gives the single
      empty line. */
  lemma LinesLastEmptyIffBlank(c: Command, out: string)
    ensures var lines := Lines(c, Completed(out)).lines;
      lines[|lines| - 1] == [] <==> AllSpace(out)
    ensures AllSpace(out) ==> Lines(c, Completed(out)).lines == [[]]
  {
    LinesOfCompleted(c, out);
    LastLineEmptyIffBlank(out);
  }

  /** `"a\r\nb\n"` gives the lines `"a"` and `"b"`: the trailing line feed is
      trimmed before the split, so no empty last line appears. */
  lemma LinesOfCrlfOutput(c: Command)
    ensures Lines(c, Completed("a\r\nb\n")).lines == ["a", "b"]
  {
    LinesOfCompleted(c, "a\r\nb\n");
    TrimExample();
    NormalizeExample();
    SplitExample();
  }
}

=== FILE: exec.dfy ===
/** The process description the builder configures (Go's `exec.Cmd`), reduced
    to the fields the builder touches, and the one `exec.Cmd` operation whose
    refusal the builder works around: `Output`. Streams are opaque handles;
    starting and waiting on a process is not modelled, its outcome is an
    input. */
module Exec {
  import opened Wrappers

  /** An `io.Reader` or `io.Writer`, seen only by identity. */
  datatype Handle =
    | OsStdin                          // the calling process's `os.Stdin`
    | OsStdout                         // the calling process's `os.Stdout`
    | OsStderr                         // the calling process's `os.Stderr`
    | Stream(id: nat)                  // any other reader or writer of the caller
    | Capture                          // the in-memory buffer that collects output
    | StderrSaver                      // the buffer `exec.Cmd.Output` keeps stderr in
    | MultiWriter(writers: seq<Handle>) // `io.MultiWriter`: every write goes to all

  /** Whatever is written to `w` reaches `target`. */
  predicate ForwardsTo(w: Handle, target: Handle)
    decreases w
  {
    || w == target
    || (w.MultiWriter? && exists k :: 0 <= k < |w.writers| && ForwardsTo(w.writers[k], target))
  }

  /** A not-yet-started process: executable, arguments, working directory
      (empty means the caller's), the three standard streams (`None` is Go's
      nil, the null device) and the environment as "KEY=VALUE" entries. */
  datatype Command = Command(
    name: string,
    args: seq<string>,
    dir: string,
    stdin: Option<Handle>,
    stdout: Option<Handle>,
    stderr: Option<Handle>,
    env: seq<string>)

  datatype Field = NameField | ArgsField | DirField | StdinField | StdoutField | StderrField | EnvField

  /** `a` and `b` differ at most in the fields listed in `changed`. */
  predicate SameExcept(a: Command, b: Command, changed: set<Field>) {
    && (NameField !in changed ==> a.name == b.name)
    && (ArgsField !in changed ==> a.args == b.args)
    && (DirField !in changed ==> a.dir == b.dir)
    && (StdinField !in changed ==> a.stdin == b.stdin)
    && (StdoutField !in changed ==> a.stdout == b.stdout)
    && (StderrField !in changed ==> a.stderr == b.stderr)
    && (EnvField !in changed ==> a.env == b.env)
  }

  /** An error the process itself produced (not found, non-zero exit, ...),
      passed through unchanged. */
  datatype ProcessFailure = ProcessFailure(id: nat)

  /** The errors an `Output` call can report. */
  datatype ExecError =
    | StdoutAlreadySet                 // "exec: Stdout already set"
    | ProcessError(failure: ProcessFailure)

  /** What running the process produced: everything it wrote to its standard
      output, or the failure. */
  datatype ProcessResult = Completed(stdout: string) | Failed(failure: ProcessFailure)

  /** The command after an `exec.Cmd.Output` call, and what the call returned. */
  datatype Captured = Captured(cmd: Command, output: Result<string, ExecError>)

  /** Go's `exec.Cmd.Output`: refuses a command whose stdout is already set;
      otherwise collects stdout in a buffer (and stderr in a saver when stderr
      is nil) and runs the process. */
  function ExecOutput(c: Command, run: ProcessResult): (r: Captured)
    ensures c.stdout.Some? <==> r.output == Failure(StdoutAlreadySet)
    ensures c.stdout.Some? ==> r.cmd == c
    ensures c.stdout.None? ==> r.cmd.stdout == Some(Capture)
    ensures c.stdout.None? && run.Completed? ==> r.output == Success(run.stdout)
    ensures c.stdout.None? && run.Failed? ==> r.output == Failure(ProcessError(run.failure))
    ensures SameExcept(c, r.cmd, {StdoutField, StderrField})
    ensures c.stderr.Some? ==> r.cmd.stderr == c.stderr
    ensures c.stdout.None? && c.stderr.None? ==> r.cmd.stderr == Some(StderrSaver)
  {
    if c.stdout.Some? then Captured(c, Failure(StdoutAlreadySet))
    else
      var c' := c.(stdout := Some(Capture),
                   stderr := if c.stderr.None? then Some(StderrSaver) else c.stderr);
      match run
      case Completed(out) => Captured(c', Success(out))
      case Failed(f) => Captured(c', Failure(ProcessError(f)))
  }
}

=== FILE: factory.dfy ===
/** The builder factory: a set of options applied to every builder it
    makes. An unset option (nil, empty directory, no entries) leaves the
    plain builder's default in place. */
module Factory {
  import opened Wrappers
  import opened Exec
  import Builder

  /** The options a factory applies; `None` is Go's nil. */
  datatype CmdFactoryOptions = CmdFactoryOptions(
    stdin: Option<Handle>,
    stdout: Option<Handle>,
    stderr: Option<Handle>,
    dir: string,
    env: seq<string>)

  /** Options that set nothing. */
  const NoOptions := CmdFactoryOptions(None, None, None, [], [])

  datatype CmdFactory = CmdFactory(options: CmdFactoryOptions)

  /** `NewFactory`: a factory holding `options`. */
  function NewFactory(options: CmdFactoryOptions): (r: CmdFactory)
    ensures r.options == options
  {
    CmdFactory(options)
  }

  /** A factory's `Cmd`: the plain builder for `name args...`, with each set
      option written over the default, and the option entries appended to
      the caller's environment. */
  function Cmd(f: CmdFactory, name: string, args: seq<string>, environ: seq<string>): (r: Command)
    ensures r.name == name && r.args == args
    ensures r.stdin == f.options.stdin && r.stdout == f.options.stdout
    ensures r.stderr == (if f.options.stderr.Some? then f.options.stderr else Some(OsStderr))
    ensures r.dir == f.options.dir
    ensures |r.env| == |environ| + |f.options.env|
    ensures r.env[..|environ|] == environ && r.env[|environ|..] == f.options.env
  {
    var o := f.options;
    var b := Builder.Cmd(name, args, environ);
    var b := if o.stdin.Some? then b.(stdin := o.stdin) else b;
    var b := if o.stdout.Some? then b.(stdout := o.stdout) else b;
    var b := if o.stderr.Some? then b.(stderr := o.stderr) else b;
    var b := if o.dir != [] then b.(dir := o.dir) else b;
    if |o.env| > 0 then b.(env := b.env + o.env) else b
  }

  /** A factory's `Shell`: the host's shell from the same table as the plain
      `Shell`, built through the factory's `Cmd`. */
  function Shell(f: CmdFactory, goos: string, shellVar: string, script: string, environ: seq<string>): (r: Command)
    ensures r.name == Builder.ShellInvocation(goos, shellVar, script).name
    ensures r.args == Builder.ShellInvocation(goos, shellVar, script).args
    ensures r == Cmd(f, r.name, r.args, environ)
  {
    var inv := Builder.ShellInvocation(goos, shellVar, script);
    Cmd(f, inv.name, inv.args, environ)
  }

  /** A factory with no options makes exactly the plain builder. */
  lemma EmptyFactoryIsPlainCmd(name: string, args: seq<string>, environ: seq<string>)
    ensures Cmd(NewFactory(NoOptions), name, args, environ) == Builder.Cmd(name, args, environ)
  {
  }

  /** A factory is a shorthand for the setter chain: its builder is the plain
      builder with the set options passed to the matching setters, an unset
      option being a setter that is not called. */
  lemma FactoryIsSetterChain(f: CmdFactory, name: string, args: seq<string>, environ: seq<string>)
    ensures var o := f.options;
      var b := Builder.Cmd(name, args, environ);
      var b := if o.stdin.Some? then Builder.Stdin(b, o.stdin) else b;
      var b := if o.stdout.Some? then Builder.Stdout(b, o.stdout) else b;
      var b := if o.stderr.Some? then Builder.Stderr(b, o.stderr) else b;
      var b := Builder.Dir(b, o.dir);
      Cmd(f, name, args, environ) == Builder.Env(b, o.env)
  {
    var r := Cmd(f, name, args, environ);
    assert r.env == environ + f.options.env;
  }

  /** The factory's shell agrees with the plain shell on the program, its
      arguments and the environment it starts from; with no options the two
      are the same builder. */
  lemma FactoryShellMatchesPlainShell(f: CmdFactory, goos: string, shellVar: string, script: string, environ: seq<string>)
    ensures var r := Shell(f, goos, shellVar, script, environ);
      var p := Builder.Shell(goos, shellVar, script, environ);
      r.name == p.name && r.args == p.args && r.env == p.env + f.options.env
    ensures f.options == NoOptions ==> Shell(f, goos, shellVar, script, environ) == Builder.Shell(goos, shellVar, script, environ)
  {
    var r := Shell(f, goos, shellVar, script, environ);
    assert r.env == environ + f.options.env;
  }

  /** A factory that sets the directory to `/tmp` and adds `W=1` makes a
      builder running in `/tmp` whose environment is the caller's followed
      by `W=1`. */
  lemma FactoryExample(name: string, args: seq<string>, environ: seq<string>)
    ensures var f := NewFactory(CmdFactoryOptions(None, None, None, "/tmp", ["W=1"]));
      var r := Cmd(f, name, args, environ);
      r.dir == "/tmp" && r.env == environ + ["W=1"] && r.stderr == Some(OsStderr)
      && r.stdin == None && r.stdout == None
  {
    var f := NewFactory(CmdFactoryOptions(None, None, None, "/tmp", ["W=1"]));
    assert Cmd(f, name, args, environ).env == environ + ["W=1"];
  }
}

=== FILE: newlines.dfy ===
/** Line-ending normalisation as the builder performs it: one
    `ReplaceAll(s, "\r\n", "\n")` pass, and what it does and does not
    change. */
module Newlines {
  import opened Wrappers
  import opened Strings
  import opened StringsLemmas

  const CRLF: string := "\r\n"
  const LF: string := "\n"

  /** The text without any carriage return. */
  function DropCarriageReturns(s: string): (r: string)
    ensures '\r' !in r
    ensures |r| <= |s|
    decreases |s|
  {
    if s == [] then []
    else if s[0] == '\r' then DropCarriageReturns(s[1..])
    else [s[0]] + DropCarriageReturns(s[1..])
  }

  /** `s` starts with a CRLF pair. */
  predicate StartsWithCrlf(s: string) {
    |s| >= 2 && s[0] == '\r' && s[1] == '\n'
  }

  /** The two steps of the normalising pass: a leading CRLF becomes LF,
      anything else is copied one rune at a time. */
  lemma NormalizeStep(s: string)
    requires s != []
    ensures StartsWithCrlf(s) ==> ReplaceAll(s, CRLF, LF) == LF + ReplaceAll(s[2..], CRLF, LF)
    ensures !StartsWithCrlf(s) ==> ReplaceAll(s, CRLF, LF) == [s[0]] + ReplaceAll(s[1..], CRLF, LF)
  {
    if StartsWithCrlf(s) {
      assert s[0..2] == CRLF;
      ReplaceAllSubstitutes(s, CRLF, LF);
    } else {
      assert !OccursAt(s, CRLF, 0) by {
        if |s| >= 2 {
          assert s[0..2][0] == s[0] && s[0..2][1] == s[1];
        }
      }
      ReplaceAllCopies(s, CRLF, LF);
    }
  }

  /** The first step of the pass on a non-empty text: the `k` runes in front
      become `head`. */
  lemma NormalizeHead(s: string) returns (k: nat, head: string)
    requires s != []
    ensures k == (if StartsWithCrlf(s) then 2 else 1) && k <= |s|
    ensures head == (if StartsWithCrlf(s) then LF else [s[0]])
    ensures ReplaceAll(s, CRLF, LF) == head + ReplaceAll(s[k..], CRLF, LF)
  {
    NormalizeStep(s);
    if StartsWithCrlf(s) {
      k, head := 2, LF;
    } else {
      k, head := 1, [s[0]];
    }
  }

  /** Dropping every carriage return from input and output leaves the same
      text, so every other rune, line feeds included, survives in order. */
  lemma {:induction false} NormalizeOnlyDropsCarriageReturns(s: string)
    ensures DropCarriageReturns(ReplaceAll(s, CRLF, LF)) == DropCarriageReturns(s)
    ensures |ReplaceAll(s, CRLF, LF)| <= |s|
    decreases |s|
  {
    if s != [] {
      NormalizeStep(s);
      if StartsWithCrlf(s) {
        NormalizeOnlyDropsCarriageReturns(s[2..]);
        assert s[1..][1..] == s[2..];
        assert (LF + ReplaceAll(s[2..], CRLF, LF))[1..] == ReplaceAll(s[2..], CRLF, LF);
      } else {
        NormalizeOnlyDropsCarriageReturns(s[1..]);
        assert ([s[0]] + ReplaceAll(s[1..], CRLF, LF))[1..] == ReplaceAll(s[1..], CRLF, LF);
      }
    }
  }

  /** A text without carriage returns is left as it is. */
  lemma {:induction false} NormalizeWithoutCarriageReturn(s: string)
    requires '\r' !in s
    ensures ReplaceAll(s, CRLF, LF) == s
    decreases |s|
  {
    if s != [] {
      NormalizeStep(s);
      assert '\r' !in s[1..];
      NormalizeWithoutCarriageReturn(s[1..]);
      assert s == [s[0]] + s[1..];
    }
  }

  /** The pass is a single left-to-right scan, not a fixpoint: a carriage
      return in front of a CRLF pair survives as a CRLF pair. */
  lemma NormalizeIsSinglePass()
    ensures ReplaceAll("\r\r\n", CRLF, LF) == "\r\n"
  {
    NormalizeStep("\r\r\n");
    assert "\r\r\n"[1..] == "\r\n";
    NormalizeStep("\r\n");
    assert "\r\n"[2..] == [];
  }

  /** The pass distributes over a concatenation whose seam does not split a
      CRLF pair. */
  lemma {:induction false} NormalizeConcat(a: string, b: string)
    requires a == [] || b == [] || a[|a| - 1] != '\r' || b[0] != '\n'
    ensures ReplaceAll(a + b, CRLF, LF) == ReplaceAll(a, CRLF, LF) + ReplaceAll(b, CRLF, LF)
    decreases |a|
  {
    var s := a + b;
    if a == [] {
      assert s == b;
      assert ReplaceAll(a, CRLF, LF) == [] by {
        assert Index(a, CRLF) == None;
      }
    } else if |a| == 1 {
      NormalizeConcatSingle(a, b);
    } else {
      var k := if StartsWithCrlf(a) then 2 else 1;
      var rest := a[k..];
      assert rest == [] || rest[|rest| - 1] == a[|a| - 1];
      NormalizeConcat(rest, b);
      NormalizeConcatStep(a, b, k);
    }
  }

  /** `NormalizeConcat` for a one-rune `a`: the rune is copied in front. */
  lemma NormalizeConcatSingle(a: string, b: string)
    requires |a| == 1 && (b == [] || a[0] != '\r' || b[0] != '\n')
    ensures ReplaceAll(a + b, CRLF, LF) == ReplaceAll(a, CRLF, LF) + ReplaceAll(b, CRLF, LF)
  {
    var s := a + b;
    assert ReplaceAll(a, CRLF, LF) == [a[0]] by {
      assert Index(a, CRLF) == None;
      assert a == [a[0]];
    }
    assert ReplaceAll(s, CRLF, LF) == [a[0]] + ReplaceAll(b, CRLF, LF) by {
      NormalizeStep(s);
      assert !StartsWithCrlf(s) && s[0] == a[0] && s[1..] == b;
    }
  }

  /** The inductive step of `NormalizeConcat`: when the part of `a` after
      its first step distributes over the seam with `b`, so does `a`. */
  lemma NormalizeConcatStep(a: string, b: string, k: nat)
    requires |a| >= 2 && k == (if StartsWithCrlf(a) then 2 else 1)
    requires ReplaceAll(a[k..] + b, CRLF, LF) == ReplaceAll(a[k..], CRLF, LF) + ReplaceAll(b, CRLF, LF)
    ensures ReplaceAll(a + b, CRLF, LF) == ReplaceAll(a, CRLF, LF) + ReplaceAll(b, CRLF, LF)
  {
    var s := a + b;
    var k0, head := NormalizeHead(a);
    var k1, head1 := NormalizeHead(s);
    assert s[0] == a[0] && s[1] == a[1];
    assert k1 == k && head1 == head;
    SliceOfConcat(a, b, k);
    GlueAfterHead(head, ReplaceAll(a[k..], CRLF, LF), ReplaceAll(b, CRLF, LF), ReplaceAll(s[k..], CRLF, LF),
                  ReplaceAll(s, CRLF, LF), ReplaceAll(a, CRLF, LF));
  }

  /** Normalising blank text leaves blank text. */
  lemma {:induction false} NormalizeKeepsBlank(s: string)
    requires AllSpace(s)
    ensures AllSpace(ReplaceAll(s, CRLF, LF))
    decreases |s|
  {
    if s != [] {
      NormalizeStep(s);
      if StartsWithCrlf(s) {
        NormalizeKeepsBlank(s[2..]);
      } else {
        NormalizeKeepsBlank(s[1..]);
      }
    }
  }

  /** A first rune other than a carriage return is kept in front. */
  lemma NormalizeKeepsFirst(s: string)
    requires s != [] && s[0] != '\r'
    ensures var r := ReplaceAll(s, CRLF, LF); r != [] && r[0] == s[0]
  {
    NormalizeStep(s);
  }

  /** A last rune other than a line feed is kept at the end. */
  lemma NormalizeKeepsLast(s: string)
    requires s != [] && s[|s| - 1] != '\n'
    ensures var r := ReplaceAll(s, CRLF, LF); r != [] && r[|r| - 1] == s[|s| - 1]
  {
    var init := s[..|s| - 1];
    var x := s[|s| - 1];
    assert s == init + [x];
    NormalizeConcat(init, [x]);
    NormalizeStep([x]);
    assert ReplaceAll([x][1..], CRLF, LF) == [];
  }

  /** Trimming and normalising commute: the builder trims before it
      normalises, and normalising first would give the same text. Only the
      split has to come last. */
  lemma NormalizeCommutesWithTrim(s: string)
    ensures TrimSpace(ReplaceAll(s, CRLF, LF)) == ReplaceAll(TrimSpace(s), CRLF, LF)
  {
    var m := TrimSpace(s);
    var i := TrimSpaceSlice(s);
    var p, q := s[..i], s[i + |m|..];
    ThreeSlices(s, i, |m|);
    if m == [] {
      TrimSpaceEmptyIffBlank(s);
      NormalizeKeepsBlank(s);
      TrimSpaceEmptyIffBlank(ReplaceAll(s, CRLF, LF));
    } else {
      NormalizePadded(p, m, q);
    }
  }

  /** `NormalizeCommutesWithTrim` for text that is not blank: normalising
      the padded core and trimming leaves the normalised core. */
  lemma NormalizePadded(p: string, m: string, q: string)
    requires AllSpace(p) && AllSpace(q) && NoOuterSpace(m) && m != []
    ensures TrimSpace(ReplaceAll(p + m + q, CRLF, LF)) == ReplaceAll(m, CRLF, LF)
  {
    assert IsSpace('\r') && IsSpace('\n');
    assert ReplaceAll(p + m, CRLF, LF) == ReplaceAll(p, CRLF, LF) + ReplaceAll(m, CRLF, LF) by {
      NormalizeConcat(p, m);
    }
    assert ReplaceAll(p + m + q, CRLF, LF) == ReplaceAll(p + m, CRLF, LF) + ReplaceAll(q, CRLF, LF) by {
      assert (p + m)[|p + m| - 1] == m[|m| - 1];
      NormalizeConcat(p + m, q);
    }
    assert NoOuterSpace(ReplaceAll(m, CRLF, LF)) by {
      NormalizeKeepsFirst(m);
      NormalizeKeepsLast(m);
    }
    NormalizeKeepsBlank(p);
    NormalizeKeepsBlank(q);
    TrimOfJoinedPadding(ReplaceAll(p, CRLF, LF), ReplaceAll(m, CRLF, LF), ReplaceAll(q, CRLF, LF),
                        ReplaceAll(p + m, CRLF, LF), ReplaceAll(p + m + q, CRLF, LF));
  }

  /** `TrimSpaceOfPadded` for a text assembled in two steps. */
  lemma TrimOfJoinedPadding(p: string, m: string, q: string, pm: string, whole: string)
    requires AllSpace(p) && AllSpace(q) && NoOuterSpace(m)
    requires pm == p + m && whole == pm + q
    ensures TrimSpace(whole) == m
  {
    TrimSpaceOfPadded(p, m, q);
  }

  /** For text that does not end with a line feed, the last line of its
      split on LF is empty exactly when the text is empty. */
  lemma LastLineEmptyIff(n: string)
    requires n == [] || n[|n| - 1] != '\n'
    ensures var lines := Split(n, LF); lines[|lines| - 1] == [] <==> n == []
  {
    SplitLastPieceEmpty(n, LF);
  }

  /** Text without white space at its ends, once normalised and split on LF,
      ends in an empty line only when it was empty itself. */
  lemma LastLineOfTrimmed(t: string)
    requires NoOuterSpace(t)
    ensures var lines := Split(ReplaceAll(t, CRLF, LF), LF);
      lines[|lines| - 1] == [] <==> t == []
  {
    if t != [] {
      assert t[|t| - 1] != '\n' by {
        assert IsSpace('\n');
      }
      NormalizeKeepsLast(t);
    }
    LastLineEmptyIff(ReplaceAll(t, CRLF, LF));
  }

  /** Trimmed, normalised and split on LF, a text ends in an empty line
      exactly when it is blank, and then that is the only line. */
  lemma LastLineEmptyIffBlank(s: string)
    ensures var lines := Split(ReplaceAll(TrimSpace(s), CRLF, LF), LF);
      lines[|lines| - 1] == [] <==> AllSpace(s)
    ensures AllSpace(s) ==> Split(ReplaceAll(TrimSpace(s), CRLF, LF), LF) == [[]]
  {
    TrimSpaceEmptyIffBlank(s);
    LinesOfTrimmed(TrimSpace(s), AllSpace(s));
  }

  /** `LastLineEmptyIffBlank` for the trimmed text `t`, where `blank` says
      whether the untrimmed text was blank. */
  lemma LinesOfTrimmed(t: string, blank: bool)
    requires NoOuterSpace(t) && (t == [] <==> blank)
    ensures var lines := Split(ReplaceAll(t, CRLF, LF), LF);
      (lines[|lines| - 1] == [] <==> blank) && (blank ==> lines == [[]])
  {
    LastLineOfTrimmed(t);
    if t == [] {
      LinesOfEmpty();
    }
  }

  /** Empty text normalises to empty text, which splits into one empty line. */
  lemma LinesOfEmpty()
    ensures Split(ReplaceAll([], CRLF, LF), LF) == [[]]
  {
    assert ReplaceAll([], CRLF, LF) == [];
    assert Index([], LF) == None;
  }

  /** Trimming `"a\r\nb\n"` drops only the final line feed. */
  lemma TrimExample()
    ensures TrimSpace("a\r\nb\n") == "a\r\nb"
  {
    assert "a\r\nb\n" == [] + "a\r\nb" + "\n";
    TrimSpaceOfPadded([], "a\r\nb", "\n");
  }

  /** `"a\r\nb"` normalises to `"a\nb"`. */
  lemma NormalizeExample()
    ensures ReplaceAll("a\r\nb", CRLF, LF) == "a\nb"
  {
    NormalizeCrlfBetween('a', 'b');
  }

  /** A CRLF pair between two other runes becomes a line feed. */
  lemma NormalizeCrlfBetween(x: char, y: char)
    requires x != '\r' && y != '\r'
    ensures ReplaceAll([x, '\r', '\n', y], CRLF, LF) == [x, '\n', y]
  {
    var s := [x, '\r', '\n', y];
    var k0, h0 := NormalizeHead(s);
    assert s[1..] == ['\r', '\n', y];
    var k1, h1 := NormalizeHead(s[1..]);
    assert s[1..][2..] == [y];
    var k2, h2 := NormalizeHead([y]);
    assert ReplaceAll([y][1..], CRLF, LF) == [];
  }

  /** `"a\nb"` splits on LF into `"a"` and `"b"`. */
  lemma SplitExample()
    ensures Split("a\nb", LF) == ["a", "b"]
  {
    var elems: seq<string> := ["a", "b"];
    RuneIsNotLineFeed('a');
    RuneIsNotLineFeed('b');
    assert elems[0] == ['a'] && elems[1] == ['b'];
    SplitJoin(elems, LF);
    assert Join(elems[1..], LF) == "b";
    assert Join(elems, LF) == "a" + LF + "b" == "a\nb";
  }

  /** A one-rune text other than a line feed holds no line feed. */
  lemma RuneIsNotLineFeed(c: char)
    requires c != '\n'
    ensures !Contains([c], LF)
  {
    forall j | 0 <= j <= 1
      ensures !OccursAt([c], LF, j)
    {
      if j == 0 {
        assert [c][0..1] == [c];
      }
    }
  }
}

=== FILE: strings.dfy ===
/** The part of Go's `strings` package that the command builder relies on:
    `TrimSpace`, `Index`, `Split`, `Join` and `ReplaceAll`, over strings seen
    as sequences of runes. */
module Strings {
  import opened Wrappers

  /** Go's `unicode.IsSpace`: the runes carrying the Unicode White_Space property. */
  predicate IsSpace(c: char) {
    || c == '\t' || c == '\n' || c == '\U{0B}' || c == '\U{0C}' || c == '\r' || c == ' '
    || c == '\U{85}' || c == '\U{A0}' || c == '\U{1680}'
    || ('\U{2000}' <= c <= '\U{200A}')
    || c == '\U{2028}' || c == '\U{2029}' || c == '\U{202F}' || c == '\U{205F}'
    || c == '\U{3000}'
  }

  predicate AllSpace(s: string) {
    forall i :: 0 <= i < |s| ==> IsSpace(s[i])
  }

  /** Neither end of `s` is white space. */
  predicate NoOuterSpace(s: string) {
    s == [] || (!IsSpace(s[0]) && !IsSpace(s[|s| - 1]))
  }

  /** Drops the leading white space of `s`. */
  function TrimLeftSpace(s: string): (r: string)
    ensures |r| <= |s| && (r == [] || !IsSpace(r[0]))
    decreases |s|
  {
    if |s| > 0 && IsSpace(s[0]) then TrimLeftSpace(s[1..]) else s
  }

  /** Drops the trailing white space of `s`. */
  function TrimRightSpace(s: string): (r: string)
    ensures |r| <= |s| && (r == [] || !IsSpace(r[|r| - 1]))
    ensures r == [] || r[0] == s[0]
    decreases |s|
  {
    if |s| > 0 && IsSpace(s[|s| - 1]) then TrimRightSpace(s[..|s| - 1]) else s
  }

  /** Go's `strings.TrimSpace`: `s` without its leading and trailing white
      space. */
  function TrimSpace(s: string): (r: string)
    ensures |r| <= |s| && NoOuterSpace(r)
  {
    TrimRightSpace(TrimLeftSpace(s))
  }

  /** `sep` occurs in `s` starting at index `j`. */
  predicate OccursAt(s: string, sep: string, j: int) {
    0 <= j && j + |sep| <= |s| && s[j..j + |sep|] == sep
  }

  predicate Contains(s: string, sep: string) {
    exists j :: 0 <= j <= |s| && OccursAt(s, sep, j)
  }

  /** Go's `strings.Index`: the first index at which `sep` occurs in `s`, or
      `None` (Go's -1) when it does not occur at all. */
  function Index(s: string, sep: string): (r: Option<nat>)
    ensures r.Some? ==> r.value + |sep| <= |s|
  {
    IndexFrom(s, sep, 0)
  }

  /** The scan behind `Index`: the first occurrence of `sep` at or after `k`. */
  function IndexFrom(s: string, sep: string, k: nat): (r: Option<nat>)
    ensures r.Some? ==> r.value + |sep| <= |s|
    decreases |s| - k
  {
    if k + |sep| > |s| then None
    else if s[k..k + |sep|] == sep then Some(k)
    else IndexFrom(s, sep, k + 1)
  }

  /** Go's `explode`: every rune of `s` as a string of its own. */
  function Explode(s: string): (r: seq<string>)
    ensures |r| == |s|
  {
    if s == [] then [] else [[s[0]]] + Explode(s[1..])
  }

  /** Go's `strings.Split`: the pieces of `s` between the non-overlapping
      occurrences of `sep`, scanning from the left; an empty `sep` splits
      into runes. */
  function Split(s: string, sep: string): (r: seq<string>)
    ensures |sep| > 0 ==> |r| >= 1
    decreases |s|
  {
    if |sep| == 0 then Explode(s)
    else
      match Index(s, sep)
      case None => [s]
      case Some(i) => [s[..i]] + Split(s[i + |sep|..], sep)
  }

  /** Go's `strings.Join`: the elements with `sep` between consecutive ones. */
  function Join(elems: seq<string>, sep: string): (r: string)
    ensures |elems| > 0 ==> elems[0] <= r
  {
    if |elems| == 0 then []
    else if |elems| == 1 then elems[0]
    else elems[0] + sep + Join(elems[1..], sep)
  }

  /** Go's `strings.ReplaceAll`: one left-to-right pass that finds each
      occurrence of `target` with `Index`, copies the text before it and
      writes `repl` in its place; an empty `target` matches at the start and
      after every rune. */
  function ReplaceAll(s: string, target: string, repl: string): (r: string)
    ensures |target| > 0 && |repl| <= |target| ==> |r| <= |s|
    ensures |target| > 0 && |repl| == |target| ==> |r| == |s|
    decreases |s|
  {
    if |target| == 0 then
      if |s| == 0 then repl else repl + [s[0]] + ReplaceAll(s[1..], target, repl)
    else
      match Index(s, target)
      case None => s
      case Some(i) => s[..i] + repl + ReplaceAll(s[i + |target|..], target, repl)
  }
}

=== FILE: strings_lemmas.dfy ===
/** Properties of the `strings` functions: what `TrimSpace` keeps, where
    `Index` points, the round trips between `Split` and `Join`, and
    `ReplaceAll` as a join of a split. */
module StringsLemmas {
  import opened Wrappers
  import opened Strings

  // ---------------------------------------------------------------- TrimSpace

  /** `TrimLeftSpace` keeps a suffix of its input that does not start with
      white space, and drops only white space. */
  lemma {:induction false} TrimLeftSpec(s: string)
    ensures var r := TrimLeftSpace(s);
      && |r| <= |s| && r == s[|s| - |r|..]
      && AllSpace(s[..|s| - |r|])
      && (r == [] || !IsSpace(r[0]))
    decreases |s|
  {
    if |s| > 0 && IsSpace(s[0]) {
      TrimLeftSpec(s[1..]);
      var r := TrimLeftSpace(s[1..]);
      assert s[..|s| - |r|] == [s[0]] + s[1..][..|s| - 1 - |r|];
    }
  }

  /** `TrimRightSpace` keeps a prefix of its input that does not end with
      white space, and drops only white space. */
  lemma {:induction false} TrimRightSpec(s: string)
    ensures var r := TrimRightSpace(s);
      && |r| <= |s| && r == s[..|r|]
      && AllSpace(s[|r|..])
      && (r == [] || !IsSpace(r[|r| - 1]))
    decreases |s|
  {
    if |s| > 0 && IsSpace(s[|s| - 1]) {
      TrimRightSpec(s[..|s| - 1]);
      var r := TrimRightSpace(s[..|s| - 1]);
      assert s[|r|..] == s[..|s| - 1][|r|..] + [s[|s| - 1]];
    }
  }

  /** Leading white space in front of `t` is exactly what `TrimLeftSpace` drops. */
  lemma {:induction false} TrimLeftOfSpacePrefix(p: string, t: string)
    requires AllSpace(p)
    requires t == [] || !IsSpace(t[0])
    ensures TrimLeftSpace(p + t) == t
    decreases |p|
  {
    if p == [] {
      assert p + t == t;
    } else {
      assert (p + t)[1..] == p[1..] + t;
      TrimLeftOfSpacePrefix(p[1..], t);
    }
  }

  /** Trailing white space behind `t` is exactly what `TrimRightSpace` drops. */
  lemma {:induction false} TrimRightOfSpaceSuffix(t: string, q: string)
    requires AllSpace(q)
    requires t == [] || !IsSpace(t[|t| - 1])
    ensures TrimRightSpace(t + q) == t
    decreases |q|
  {
    if q == [] {
      assert t + q == t;
    } else {
      var q' := q[..|q| - 1];
      assert (t + q)[..|t + q| - 1] == t + q';
      TrimRightOfSpaceSuffix(t, q');
    }
  }

  /** What `TrimSpace` returns: a slice `s[i..i + |r|]` of its input that
      neither starts nor ends with white space, with only white space before
      and after it. */
  lemma TrimSpaceSlice(s: string) returns (i: nat)
    ensures var r := TrimSpace(s);
      && i + |r| <= |s| && r == s[i..i + |r|]
      && AllSpace(s[..i]) && AllSpace(s[i + |r|..])
      && NoOuterSpace(r)
  {
    var l := TrimLeftSpace(s);
    var r := TrimRightSpace(l);
    TrimLeftSpec(s);
    TrimRightSpec(l);
    i := |s| - |l|;
    SliceOfSuffix(s, i, |r|);
    assert r == [] || r[0] == l[0] by {
      if r != [] { assert r[0] == l[..|r|][0]; }
    }
  }

  /** Slicing a suffix of `s` is slicing `s` at shifted bounds. */
  lemma SliceOfSuffix(s: string, i: nat, k: nat)
    requires i + k <= |s|
    ensures s[i..][..k] == s[i..i + k]
    ensures s[i..][k..] == s[i + k..]
  {
  }

  /** Slicing `a + b + c` back into its parts. */
  lemma SlicesOfJoin(a: string, b: string, c: string)
    ensures (a + b + c)[..|a|] == a
    ensures (a + b + c)[|a| + |b|..] == c
  {
  }

  /** Concatenation is associative. */
  lemma ConcatAssoc(x: string, y: string, z: string)
    ensures x + (y + z) == (x + y) + z
  {
  }

  /** Regrouping a text that continues after a common head. */
  lemma GlueAfterHead(head: string, x: string, y: string, z: string, whole: string, part: string)
    requires whole == head + z && z == x + y && part == head + x
    ensures whole == part + y
  {
    ConcatAssoc(head, x, y);
  }

  /** A suffix of `a + b` starting inside `a`. */
  lemma SliceOfConcat(a: string, b: string, k: nat)
    requires k <= |a|
    ensures (a + b)[k..] == a[k..] + b
  {
  }

  /** `s` cut into three consecutive slices. */
  lemma ThreeSlices(s: string, i: nat, k: nat)
    requires i + k <= |s|
    ensures s == s[..i] + s[i..i + k] + s[i + k..]
  {
  }

  /** `TrimSpace` characterised independently of how it scans: padding a text
      with no outer white space by white space on both sides and trimming
      gives the text back. */
  lemma TrimSpaceOfPadded(p: string, m: string, q: string)
    requires AllSpace(p) && AllSpace(q)
    requires NoOuterSpace(m)
    ensures TrimSpace(p + m + q) == m
  {
    if m == [] {
      assert p + m + q == (p + q) + [];
      TrimLeftOfSpacePrefix(p + q, []);
    } else {
      assert p + m + q == p + (m + q);
      TrimLeftOfSpacePrefix(p, m + q);
      TrimRightOfSpaceSuffix(m, q);
    }
  }

  /** Trimming twice is trimming once. */
  lemma TrimSpaceIdempotent(s: string)
    ensures TrimSpace(TrimSpace(s)) == TrimSpace(s)
  {
    var m := TrimSpace(s);
    var _ := TrimSpaceSlice(s);
    assert [] + m + [] == m;
    TrimSpaceOfPadded([], m, []);
  }

  /** The trimmed text is empty exactly when the input is blank. */
  lemma TrimSpaceEmptyIffBlank(s: string)
    ensures TrimSpace(s) == [] <==> AllSpace(s)
  {
    if AllSpace(s) {
      assert s + [] + [] == s;
      TrimSpaceOfPadded(s, [], []);
    } else {
      var _ := TrimSpaceSlice(s);
    }
  }

  // -------------------------------------------------------------------- Index

  /** The scan from `k` finds the first occurrence at or after `k`, and
      reports none only when there is none from `k` on. */
  lemma {:induction false} IndexFromIsFirst(s: string, sep: string, k: nat)
    ensures var r := IndexFrom(s, sep, k);
      r.Some? ==> k <= r.value && OccursAt(s, sep, r.value)
    ensures var r := IndexFrom(s, sep, k);
      r.Some? ==> forall j :: k <= j < r.value ==> !OccursAt(s, sep, j)
    ensures IndexFrom(s, sep, k).None? ==> forall j :: k <= j <= |s| ==> !OccursAt(s, sep, j)
    decreases |s| - k
  {
    if k + |sep| > |s| {
    } else if s[k..k + |sep|] == sep {
    } else {
      IndexFromIsFirst(s, sep, k + 1);
      assert !OccursAt(s, sep, k);
    }
  }

  /** `Index` finds the first occurrence, and reports none only when there is
      none anywhere. */
  lemma IndexIsFirst(s: string, sep: string)
    ensures Index(s, sep).Some? ==> OccursAt(s, sep, Index(s, sep).value)
    ensures Index(s, sep).Some? ==>
      forall j :: 0 <= j < Index(s, sep).value ==> !OccursAt(s, sep, j)
    ensures Index(s, sep).None? ==> !Contains(s, sep)
  {
    IndexFromIsFirst(s, sep, 0);
  }

  /** A text with no occurrence of `sep` has no index for it. */
  lemma IndexOfClean(s: string, sep: string)
    requires !Contains(s, sep)
    ensures Index(s, sep) == None
  {
    IndexIsFirst(s, sep);
  }

  /** In `a + sep + b`, a one-rune separator is first found right after `a`
      when `a` does not contain it. */
  lemma IndexAfterClean(a: string, sep: string, b: string)
    requires |sep| == 1 && !Contains(a, sep)
    ensures Index(a + sep + b, sep) == Some(|a|)
  {
    var s := a + sep + b;
    IndexIsFirst(s, sep);
    assert s[|a|..|a| + 1] == sep;
    assert OccursAt(s, sep, |a|);
    forall j | 0 <= j < |a| && OccursAt(s, sep, j)
      ensures false
    {
      assert s[j..j + 1] == a[j..j + 1];
      assert OccursAt(a, sep, j);
    }
  }

  // ------------------------------------------------------------- Split, Join

  /** The text before the first occurrence of `sep` does not contain `sep`. */
  lemma PrefixBeforeFirstClean(s: string, sep: string, i: nat)
    requires |sep| > 0 && i <= |s|
    requires forall j :: 0 <= j < i ==> !OccursAt(s, sep, j)
    ensures !Contains(s[..i], sep)
  {
    forall j | 0 <= j <= i && OccursAt(s[..i], sep, j)
      ensures false
    {
      assert s[..i][j..j + |sep|] == s[j..j + |sep|];
      assert OccursAt(s, sep, j);
    }
  }

  /** One step of `Split`: the piece before the first occurrence, then the
      split of what follows the occurrence. */
  lemma SplitAtFirst(s: string, sep: string)
    requires |sep| > 0 && Index(s, sep).Some?
    ensures var i := Index(s, sep).value;
      Split(s, sep) == [s[..i]] + Split(s[i + |sep|..], sep)
  {
  }

  /** One step of `Join` on a list of at least two elements. */
  lemma JoinCons(x: string, tail: seq<string>, sep: string)
    requires |tail| >= 1
    ensures Join([x] + tail, sep) == x + sep + Join(tail, sep)
  {
    assert ([x] + tail)[1..] == tail;
  }

  /** No piece of a split on a non-empty separator contains the separator. */
  lemma {:induction false} SplitPiecesClean(s: string, sep: string)
    requires |sep| > 0
    ensures forall k :: 0 <= k < |Split(s, sep)| ==> !Contains(Split(s, sep)[k], sep)
    decreases |s|
  {
    IndexIsFirst(s, sep);
    match Index(s, sep)
    case None =>
    case Some(i) =>
      SplitAtFirst(s, sep);
      PrefixBeforeFirstClean(s, sep, i);
      SplitPiecesClean(s[i + |sep|..], sep);
  }

  /** Joining the pieces of a split with the separator restores the input. */
  lemma {:induction false} JoinSplit(s: string, sep: string)
    requires |sep| > 0
    ensures Join(Split(s, sep), sep) == s
    decreases |s|
  {
    IndexIsFirst(s, sep);
    match Index(s, sep)
    case None =>
      assert Split(s, sep) == [s];
    case Some(i) =>
      var rest := s[i + |sep|..];
      SplitAtFirst(s, sep);
      JoinSplit(rest, sep);
      JoinCons(s[..i], Split(rest, sep), sep);
      ThreeSlices(s, i, |sep|);
  }

  /** With a one-rune separator, splitting a join gives back the elements,
      provided no element contains the separator (a longer separator can
      straddle an element boundary, so it is excluded). */
  lemma {:induction false} SplitJoin(elems: seq<string>, sep: string)
    requires |sep| == 1 && |elems| >= 1
    requires forall k :: 0 <= k < |elems| ==> !Contains(elems[k], sep)
    ensures Split(Join(elems, sep), sep) == elems
    decreases |elems|
  {
    if |elems| == 1 {
      IndexOfClean(elems[0], sep);
    } else {
      var rest := Join(elems[1..], sep);
      var s := elems[0] + sep + rest;
      assert Join(elems, sep) == s;
      IndexAfterClean(elems[0], sep, rest);
      SplitAtFirst(s, sep);
      SlicesOfJoin(elems[0], sep, rest);
      SplitJoin(elems[1..], sep);
      assert elems == [elems[0]] + elems[1..];
    }
  }

  /** Appending an element to a non-empty list appends the separator and the
      element to its join. */
  lemma {:induction false} JoinSnoc(xs: seq<string>, y: string, sep: string)
    requires |xs| >= 1
    ensures Join(xs + [y], sep) == Join(xs, sep) + sep + y
    decreases |xs|
  {
    if |xs| == 1 {
      assert (xs + [y])[1..] == [y];
    } else {
      assert (xs + [y])[1..] == xs[1..] + [y];
      JoinSnoc(xs[1..], y, sep);
    }
  }

  /** A text cut into a front that is empty or ends with the separator rune
      and a last part that does not end with it: the last part is empty
      exactly when the text is empty or ends with the separator rune. */
  lemma LastPartEmptyIff(s: string, front: string, last: string, sep: string)
    requires |sep| == 1 && s == front + last
    requires front == [] || front[|front| - 1] == sep[0]
    requires last == [] || last[|last| - 1] != sep[0]
    ensures last == [] <==> (s == [] || s[|s| - 1] == sep[0])
  {
    if last != [] {
      assert s[|s| - 1] == last[|last| - 1];
    }
  }

  /** Splitting on a one-rune separator, the last piece is empty exactly when
      the text is empty or ends with the separator. */
  lemma SplitLastPieceEmpty(s: string, sep: string)
    requires |sep| == 1
    ensures var pieces := Split(s, sep);
      pieces[|pieces| - 1] == [] <==> (s == [] || s[|s| - 1] == sep[0])
  {
    var pieces := Split(s, sep);
    var n := |pieces|;
    var last := pieces[n - 1];
    JoinSplit(s, sep);
    SplitPiecesClean(s, sep);
    NoSeparatorAtEnd(last, sep);
    if n == 1 {
      assert s == [] + last;
      LastPartEmptyIff(s, [], last, sep);
    } else {
      var init := pieces[..n - 1];
      SplitOffLast(pieces);
      JoinSnoc(init, last, sep);
      var front := Join(init, sep) + sep;
      assert front[|front| - 1] == sep[0];
      LastPartEmptyIff(s, front, last, sep);
    }
  }

  /** A text without a one-rune separator does not end with it. */
  lemma NoSeparatorAtEnd(x: string, sep: string)
    requires |sep| == 1 && !Contains(x, sep)
    ensures x == [] || x[|x| - 1] != sep[0]
  {
    if x != [] {
      assert !OccursAt(x, sep, |x| - 1);
      assert x[|x| - 1..] == [x[|x| - 1]];
    }
  }

  /** A non-empty list is its front followed by its last element. */
  lemma SplitOffLast(xs: seq<string>)
    requires |xs| > 0
    ensures xs == xs[..|xs| - 1] + [xs[|xs| - 1]]
  {
  }

  // --------------------------------------------------------------- ReplaceAll

  /** Scanning `s` from `k + 1` is scanning its tail from `k`, one further on. */
  lemma {:induction false} IndexFromShift(s: string, sep: string, k: nat)
    requires |s| > 0
    ensures var r := IndexFrom(s[1..], sep, k);
      IndexFrom(s, sep, k + 1) == if r.None? then None else Some(r.value + 1)
    decreases |s| - k
  {
    var u := s[1..];
    if k + |sep| > |u| {
      assert IndexFrom(u, sep, k) == None;
      assert IndexFrom(s, sep, k + 1) == None;
    } else {
      TailSlice(s, k, |sep|);
      if u[k..k + |sep|] == sep {
        assert IndexFrom(u, sep, k) == Some(k);
        assert IndexFrom(s, sep, k + 1) == Some(k + 1);
      } else {
        IndexFromShift(s, sep, k + 1);
        assert IndexFrom(u, sep, k) == IndexFrom(u, sep, k + 1);
        assert IndexFrom(s, sep, k + 1) == IndexFrom(s, sep, k + 2);
      }
    }
  }

  /** Where no occurrence starts at 0, `Index` of `s` is `Index` of its tail,
      one further on. */
  lemma IndexOfTail(s: string, sep: string)
    requires |s| > 0 && !OccursAt(s, sep, 0)
    ensures var r := Index(s[1..], sep);
      Index(s, sep) == if r.None? then None else Some(r.value + 1)
  {
    if |sep| <= |s| {
      assert s[0..|sep|] != sep;
      IndexFromShift(s, sep, 0);
    }
  }

  /** One step of `ReplaceAll` with a pattern that occurs: the text up to the
      first occurrence, the replacement, and the rest done the same way. */
  lemma ReplaceAllAtFirst(s: string, target: string, repl: string)
    requires |target| > 0 && Index(s, target).Some?
    ensures var i := Index(s, target).value;
      ReplaceAll(s, target, repl) == s[..i] + repl + ReplaceAll(s[i + |target|..], target, repl)
  {
  }

  /** `ReplaceAll` leaves a text without occurrences untouched. */
  lemma ReplaceAllClean(s: string, target: string, repl: string)
    requires |target| > 0 && !Contains(s, target)
    ensures ReplaceAll(s, target, repl) == s
  {
    IndexOfClean(s, target);
  }

  /** Where the pattern starts, `ReplaceAll` substitutes it. */
  lemma ReplaceAllSubstitutes(s: string, target: string, repl: string)
    requires |target| > 0 && OccursAt(s, target, 0)
    ensures ReplaceAll(s, target, repl) == repl + ReplaceAll(s[|target|..], target, repl)
  {
    assert Index(s, target).Some? && Index(s, target).value == 0;
    ReplaceAllAtFirst(s, target, repl);
    DropEmptyFront(s[..Index(s, target).value], repl, ReplaceAll(s[Index(s, target).value + |target|..], target, repl),
                   ReplaceAll(s, target, repl));
  }

  /** Nothing in front of a text adds nothing. */
  lemma DropEmptyFront(front: string, x: string, y: string, whole: string)
    requires front == [] && whole == front + x + y
    ensures whole == x + y
  {
  }

  /** A slice of the tail of `s` is a slice of `s` one further on. */
  lemma TailSlice(s: string, k: nat, m: nat)
    requires k + 1 + m <= |s|
    ensures s[1..][k..k + m] == s[k + 1..k + 1 + m]
  {
  }

  /** A suffix of the tail of `s` is a suffix of `s` one further on. */
  lemma TailSuffix(s: string, i: nat, j: nat, m: nat)
    requires i == j + 1 && i + m <= |s|
    ensures s[1..][j + m..] == s[i + m..]
  {
  }

  /** Copying the first rune in front of one step of `ReplaceAll` on the
      tail is the same step on the whole text. */
  lemma CopyInFront(s: string, i: nat, j: nat, m: nat, repl: string, r1: string, r2: string, whole: string, tail: string)
    requires i == j + 1 && i + m <= |s|
    requires whole == s[..i] + repl + r1
    requires tail == s[1..][..j] + repl + r2
    requires r1 == r2
    ensures whole == [s[0]] + tail
  {
    assert s[..i] == [s[0]] + s[1..][..j];
  }

  /** The copying step when the tail holds an occurrence: both texts are
      cut at the same place. */
  lemma ReplaceAllCopiesFound(s: string, target: string, repl: string)
    requires |target| > 0 && |s| > 0 && Index(s[1..], target).Some?
    requires Index(s, target).Some? && Index(s, target).value == Index(s[1..], target).value + 1
    ensures ReplaceAll(s, target, repl) == [s[0]] + ReplaceAll(s[1..], target, repl)
  {
    ReplaceAllAtFirst(s, target, repl);
    ReplaceAllAtFirst(s[1..], target, repl);
    TailSuffix(s, Index(s, target).value, Index(s[1..], target).value, |target|);
    assert s[1..][Index(s[1..], target).value + |target|..] == s[Index(s, target).value + |target|..];
    assert ReplaceAll(s[Index(s, target).value + |target|..], target, repl) == ReplaceAll(s[1..][Index(s[1..], target).value + |target|..], target, repl);
    CopyInFront(s, Index(s, target).value, Index(s[1..], target).value, |target|, repl,
                ReplaceAll(s[Index(s, target).value + |target|..], target, repl),
                ReplaceAll(s[1..][Index(s[1..], target).value + |target|..], target, repl),
                ReplaceAll(s, target, repl), ReplaceAll(s[1..], target, repl));
  }

  /** Where the pattern does not start, `ReplaceAll` copies one rune. */
  lemma ReplaceAllCopies(s: string, target: string, repl: string)
    requires |target| > 0 && |s| > 0 && !OccursAt(s, target, 0)
    ensures ReplaceAll(s, target, repl) == [s[0]] + ReplaceAll(s[1..], target, repl)
  {
    IndexOfTail(s, target);
    if Index(s[1..], target).None? {
      assert s == [s[0]] + s[1..];
    } else {
      ReplaceAllCopiesFound(s, target, repl);
    }
  }

  /** An independent reference for `ReplaceAll` with a non-empty pattern: it
      is the join, with the replacement, of the split on the pattern. */
  lemma {:induction false} ReplaceAllIsJoinOfSplit(s: string, target: string, repl: string)
    requires |target| > 0
    ensures ReplaceAll(s, target, repl) == Join(Split(s, target), repl)
    decreases |s|
  {
    if Index(s, target).Some? {
      var i := Index(s, target).value;
      var rest := s[i + |target|..];
      ReplaceAllAtFirst(s, target, repl);
      ReplaceAllIsJoinOfSplit(rest, target, repl);
      SplitAtFirst(s, target);
      JoinCons(s[..i], Split(rest, target), repl);
    }
  }

  /** Replacing a pattern by itself changes nothing (Go short-cuts this case
      by returning the input). */
  lemma {:induction false} ReplaceAllSelf(s: string, x: string)
    ensures ReplaceAll(s, x, x) == s
    decreases |s|
  {
    if |x| == 0 {
      if |s| > 0 {
        ReplaceAllSelf(s[1..], x);
        assert s == [s[0]] + s[1..];
      }
    } else if Index(s, x).Some? {
      var i := Index(s, x).value;
      IndexIsFirst(s, x);
      ReplaceAllAtFirst(s, x, x);
      ReplaceAllSelf(s[i + |x|..], x);
      ThreeSlices(s, i, |x|);
    }
  }
}

=== FILE: wrappers.dfy ===
/** The two wrappers the model uses: `Option` stands for a Go value that may
    be nil, `Result` for a Go `(value, error)` pair. */
module Wrappers {

  /** A value that may be absent; `None` is Go's nil. */
  datatype Option<+T> = None | Some(value: T)

  /** Either a successful value or an error. */
  datatype Result<+R, +E> = Success(value: R) | Failure(error: E)
}
